=== FILE: README.md ===
# Zoe ICE: the record state machine and the delivery sweep

Zoe ICE ("In Case of Emergency") is an agent of the Zoe bot. Each user keeps one
ICE record: a list of recipient addresses, a message, a delivery date and an
`enabled` flag. Commands (`add-mails`, `rm-mails`, `set-msg`, `get-msg`,
`set-date`, `get-date`, `enable-ice`, `disable-ice`, `get-ice`, `test-ice`)
edit or read that record. Every 300 seconds a sweep turns each enabled record
whose date has come into one mail per recipient plus an `ICE_SENT` notice to
the owner.

This Dafny project models that core of `agents/ice/ice.py` as pure functions:

- `Wrappers` — `Option`, Python's `None` or a value.
- `Emails` — the recipient list, which the agent rebuilds through `set(...)`
  on every change, so it behaves as a duplicate-free set.
- `Dates` — `strptime(s, '%Y-%m-%d')` with its full grammar (one-digit month
  or day and a space-padded day are accepted, not only `YYYY-MM-DD`), year
  1..9999, Gregorian month lengths, and the midnight of a date in seconds since
  the Unix epoch. The clock is an input `now`: whole UTC seconds, rounded down,
  which gives the same verdict as Python's comparison of a midnight with
  `utcnow()`.
- `Messages` — the message catalogue keys (`DATE_INVALID`, `ICE_SENT`, …) as
  constructors, and the two exceptions the core can raise.
- `Feedback` — `_feedback`, with the user directory (`zoe.Users()`, each known
  user's `preferred` channel) as an input.
- `Records` — the record, the store `map<string, Record>` keyed by user,
  `_get_record` (get-or-create with defaults) and `_update_record` (field
  merge).
- `DocStore` — the TinyDB table exactly as the code drives it (see Findings).
- `Commands` — one transition per command:
  `(store, fields, now, directory) -> (store', reply)`, where the reply is
  nothing, a payload, or a raised exception.
- `Sweep` — `deliver_ice`: `(store, order, now, directory) -> payloads`. It
  returns no store because it writes nothing.
- `Lifecycle` — command dispatch, runs of commands from an empty table, and
  the invariant "an enabled record has a date that parses".
- `Scenarios` — the model on concrete inputs.

The model follows the code, including where the code departs from what its
docstrings promise or what a reader would expect:

- The sweep does not disable a record it has delivered. Its docstring says it
  does, but `deliver_ice` contains no write. A due record is therefore sent
  again on every later sweep (`Sweep.SweepRepeats`).
- `set-date` leaves `enabled` as it was. It does not reset it to false.
- `add-mails` followed by `rm-mails` of the same list gives the old set minus
  that list. That is the old set only when the two were disjoint
  (`Commands.AddThenRemove`).
- A user missing from the directory does not get a quiet "abandoned" outcome.
  The code raises `AttributeError` (Findings, row 2). `Feedback.BuildAsWritten`
  and `Sweep.DeliverAsWritten` model that raise, and the latter shows that it
  ends the sweep. The command replies and `Sweep.Deliver` use the corrected
  builder, which sends nothing in that case; `Sweep.AsWrittenAgrees` shows
  the two sweeps agree whenever every enabled owner is in the directory.
- A never-set date (`None`) makes `strptime` raise `TypeError` in `enable-ice`,
  in `set-date` without a `date` field, and in the sweep. The model returns
  that error as an outcome, separate from `DATE_INVALID`. No reachable store
  leads the sweep there (`Lifecycle.ReachableSweepIsClean`).

A missing `user`, `src` or `subject` is modelled as the empty string, because
the code tests each with Python truthiness.

## Model

| member | source | states |
|---|---|---|
| Emails.Dedup | agents/ice/ice.py:113 | `list(set(xs))` holds each element of `xs` exactly once and nothing else |
| Emails.Union | agents/ice/ice.py:113 | the new list is the set union of the stored and added addresses, with no duplicates |
| Emails.Difference | agents/ice/ice.py:275 | the new list is the stored set minus the removed addresses, with no duplicates |
| Emails.RemoveAfterAdd | agents/ice/ice.py:112-115 | adding a list and then removing it leaves the old set minus that list |
| Emails.RemoveAfterAddRestores | agents/ice/ice.py:274-277 | that round trip gives back the old set if and only if the list was disjoint from it |
| Emails.UnionIdempotent | agents/ice/ice.py:113 | adding the same addresses twice gives the same set as adding them once |
| Dates.Parse | agents/ice/ice.py:303-307 | every string `strptime` accepts denotes a representable Gregorian date |
| Dates.ParseFormat | agents/ice/ice.py:304 | every representable date, written `YYYY-MM-DD`, parses back to itself |
| Dates.FormatParse | agents/ice/ice.py:304 | a canonical `YYYY-MM-DD` string that parses is exactly the canonical writing of its date |
| Dates.OrdinalMonotone | agents/ice/ice.py:171 | the day count grows strictly with calendar order |
| Dates.MidnightOrder | agents/ice/ice.py:309 | comparing midnights in seconds agrees with comparing `datetime` values, in both directions |
| Dates.InPastMeansTodayOrEarlier | agents/ice/ice.py:171 | a date counts as in the past at an instant exactly when it is that instant's day or an earlier one |
| Dates.Classify | agents/ice/ice.py:303-310 | a date is invalid iff it does not parse, and in the future iff it parses and its midnight is after `now` |
| Dates.PastStaysPast | agents/ice/ice.py:80-82 | a date that is due stays due as the clock advances |
| Feedback.Build | agents/ice/ice.py:372-398 | a payload always goes to the relay and is addressed to the user. The explicit destination wins over the user's preference, which defaults to mail. A mail gets the subject or `Zoe ICE`. Nothing is built only for an unknown user with no destination |
| Feedback.BuildAsWritten | agents/ice/ice.py:378-384 | as written, `_feedback` raises exactly when no destination is given and the user is unknown |
| Feedback.AsWrittenDiffersOnlyForUnknownUser | agents/ice/ice.py:378-389 | the written `_feedback` and the intended one agree except on the unknown-user path, where one raises and the other sends nothing |
| Feedback.UnknownOwnerRaises | agents/ice/ice.py:383 | an `ICE_SENT` notice to an owner missing from the directory raises as written |
| Records.GetRecord | agents/ice/ice.py:400-431 | a lookup returns the stored record or inserts and returns the defaults, and touches no other user |
| Records.UpdateRecord | agents/ice/ice.py:454-475 | an update creates the record if needed and overwrites exactly the patched fields of that user's record |
| Records.GetRecordIdempotent | agents/ice/ice.py:412-417 | a second lookup finds the record the first created and changes nothing |
| Records.UpdateThenGet | agents/ice/ice.py:466-473 | the next lookup returns the updated record |
| Records.EmptyPatchOnlyCreates | agents/ice/ice.py:466-470 | an update with no fields only makes sure the record exists |
| DocStore.FindSkips | agents/ice/ice.py:414 | a document that does not match the `user` query is invisible to the lookup |
| DocStore.GetRecordAsWritten | agents/ice/ice.py:412-431 | as written, a hit returns the stored record; a miss returns the defaults and appends one document for the user that the same query still cannot find. Existing documents are untouched |
| DocStore.UpdateRecordAsWritten | agents/ice/ice.py:466-473 | as written, an update merges the patch into matching documents only, after the lookup has appended a default document on a miss; nothing else changes |
| DocStore.ApplyUpdate | agents/ice/ice.py:473 | `db.update` merges the patch into exactly the documents matching the query, in place; every other document is unchanged, and none is added or dropped |
| DocStore.FindMisses | agents/ice/ice.py:414 | on any table the code can produce, the `user` query matches no document |
| DocStore.UpdateMatchesNothing | agents/ice/ice.py:473 | on such a table, the `user`-keyed update changes no document |
| DocStore.LookupAlwaysMisses | agents/ice/ice.py:412-431 | as written, every lookup returns fresh defaults and appends another `name`-keyed document |
| DocStore.UpdateIsLost | agents/ice/ice.py:466-473 | as written, the lookup after an update still sees the defaults |
| DocStore.SetMessageIsLost | agents/ice/ice.py:339 | as written, a message set on an empty table reads back as empty, while the keyed store returns it |
| Commands.AddMails | agents/ice/ice.py:101-117 | the stored set gains the addresses and stays duplicate-free. Message, flag and date are kept, and other users are untouched. No user means no effect |
| Commands.RmMails | agents/ice/ice.py:263-279 | the stored set loses the addresses and stays duplicate-free. Nothing else changes. No user means no effect |
| Commands.SetDate | agents/ice/ice.py:292-315 | an unparseable date gives `DATE_INVALID` and a date not after `now` gives `DATE_INPAST`; both write nothing, not even the record. Otherwise only `date` is written and `enabled` is kept. A missing date raises |
| Commands.EnableIce | agents/ice/ice.py:153-177 | `enabled` becomes true exactly when the stored date parses and is after `now`. Otherwise it is `DATE_INVALID` or `DATE_INPAST` with the record as fetched, or a raise for a never-set date. Only `enabled` can change |
| Commands.DisableIce | agents/ice/ice.py:129-141 | `enabled` becomes false and every other field is kept |
| Commands.SetMsg | agents/ice/ice.py:328-341 | the message is overwritten and every other field is kept |
| Commands.GetDate | agents/ice/ice.py:187-200 | shows the stored date, or `DATE_NOTSET` when there is none; it only creates the record |
| Commands.GetMsg | agents/ice/ice.py:240-252 | shows the stored message; it only creates the record |
| Commands.GetIceAsWritten | agents/ice/ice.py:210-230 | as written, get-ice always raises `AttributeError` once it has fetched the record |
| Commands.GetIce | agents/ice/ice.py:219-230 | the intended summary is the `_feedback` reply of the summary text with no subject. It never raises and goes to the relay, addressed to the user, as a mail exactly when the source or else the user's preference (mail by default) is the mail channel, with subject `Zoe ICE`. It shows the stored addresses joined by `, `, the stored date, and `ICE_ENABLED` or `ICE_DISABLED` as the flag says. Only an unknown user with no source gets no reply. It only creates the record |
| Commands.TestIce | agents/ice/ice.py:352-361 | mails the stored message to the user with subject `Zoe ICE test`, whatever the directory, the date or the flag say |
| Commands.SetDateThenGetDate | agents/ice/ice.py:197-200 | a date stored by set-date is the date get-date shows |
| Commands.SetMsgThenRead | agents/ice/ice.py:250-252 | a message stored by set-msg is what get-msg shows and what test-ice mails |
| Commands.AddThenRemove | agents/ice/ice.py:274-277 | add-mails then rm-mails of one list leaves the old set minus the list, and that is the old set iff they were disjoint |
| Commands.EnableThenGetIce | agents/ice/ice.py:163-177 | after an enable-ice that reports `ICE_ENABLED`, get-ice shows the status `ICE_ENABLED` |
| Commands.DisableThenGetIce | agents/ice/ice.py:139-141 | after disable-ice, get-ice shows `ICE_DISABLED` with the addresses and date the record had |
| Sweep.MailAll | agents/ice/ice.py:87-88 | one mail per stored address, in list order, to that address, with subject `Zoe ICE` and the stored message |
| Sweep.DeliverRecord | agents/ice/ice.py:69-90 | a disabled record or a future date sends nothing, and an unparseable date sends `DATE_INVALID` to the owner. A never-set date raises. A due record sends its mails followed by exactly the `ICE_SENT` notice `_feedback` builds for the owner with no destination: to the relay on the owner's preferred channel, and nothing for an unknown owner |
| Sweep.Deliver | agents/ice/ice.py:60-67 | with no enabled record the sweep sends nothing |
| Sweep.PerRecord | agents/ice/ice.py:69-90 | lists, in visiting order, exactly the payloads each visited record sends |
| Sweep.DeliverIsConcatenation | agents/ice/ice.py:66-90 | on armed records the sweep's output is the in-order concatenation of each record's payloads, with nothing added, dropped or reordered |
| Sweep.DeliverCovers | agents/ice/ice.py:69-90 | on armed records the sweep finishes and sends every payload of every record it visits |
| Sweep.DeliverSound | agents/ice/ice.py:69-90 | every payload a sweep sends comes from one of the records it visits |
| Sweep.ArmedSweepIsClean | agents/ice/ice.py:73-78 | on armed records the sweep never raises and never reports `DATE_INVALID` |
| Sweep.DueStaysDue | agents/ice/ice.py:80-82 | a due record stays due, and its delivery is identical at every later instant |
| Sweep.SweepRepeats | agents/ice/ice.py:54-90 | the sweep writes nothing, so a due record's mails are sent by this sweep and again by every later one |
| Sweep.DeliverRecordAsWritten | agents/ice/ice.py:69-90 | as written, the loop body raises `AttributeError` exactly for an enabled record of an owner missing from the directory whose date is unparseable or due: a due one sends its mails first. A record not yet due is skipped before `_feedback` and never raises. Whenever it does not raise `AttributeError`, it is the intended loop body |
| Sweep.DeliverAsWritten | agents/ice/ice.py:54-90 | as written, with no enabled record the sweep sends nothing, and an `AttributeError` ending it always comes from an enabled record, not yet in the future, whose owner is missing from the directory |
| Sweep.UnknownOwnerEndsSweep | agents/ice/ice.py:84-90 | as written, the first due record with an unknown owner ends the sweep: its mails are sent and no later record is visited |
| Sweep.AsWrittenAgrees | agents/ice/ice.py:69-90 | the written sweep equals the intended one whenever every enabled owner is in the directory |
| Sweep.ArmedSweepIsCleanAsWritten | agents/ice/ice.py:73-90 | as written, on armed records with known enabled owners the sweep never raises and never reports `DATE_INVALID` |
| Lifecycle.StepPreservesInv | agents/ice/ice.py:163-177 | every command keeps "enabled implies a date that parses" |
| Lifecycle.RunPreservesInv | agents/ice/ice.py:303-315 | any sequence of commands keeps that invariant |
| Lifecycle.ReachableIsArmed | agents/ice/ice.py:420-426 | every store reachable from the empty table by commands satisfies it |
| Lifecycle.ReachableSweepIsClean | agents/ice/ice.py:73-78 | on every reachable store the sweep's `DATE_INVALID` branch and its `TypeError` are unreachable |
| Lifecycle.NoUserNoEffect | agents/ice/ice.py:105-107 | every command, reads and test-ice included, ignores a missing or empty user: no reply, no change |
| Scenarios.Calendar | agents/ice/ice.py:61 | 1970-01-01 is day 719163, and 2026-10-10 starts at second 1791590400 |
| Scenarios.DateGrammar | agents/ice/ice.py:304 | `2099-1-5` and `2099-01- 5` parse. `2099-02-29`, `0000-01-01`, `2099-13-40` and `2099-01-5x` do not |
| Scenarios.SetFutureDate | agents/ice/ice.py:312-315 | `2099-01-01` is stored and creates the record |
| Scenarios.SetImpossibleDate | agents/ice/ice.py:303-307 | `2099-13-40` gives `DATE_INVALID` and leaves the store unchanged |
| Scenarios.SetPastDate | agents/ice/ice.py:309-310 | `2000-01-01` gives `DATE_INPAST` and leaves the store unchanged |
| Scenarios.SweepDueRecord | agents/ice/ice.py:84-90 | a record due yesterday with two addresses sends two mails and one `ICE_SENT` |
| Scenarios.SweepFutureRecord | agents/ice/ice.py:80-82 | a record due tomorrow sends nothing |

## Left out

- Locking: the `RWLock` reader/writer lock is not modelled. Each command and each sweep is one atomic step, so the unlocked read-modify-write in add-mails and rm-mails is out of scope.
- Persistence: TinyDB and its `Query` become an in-memory map. `DocStore` models only the query/insert key mismatch.
- Host wiring: the `@Agent`, `@Message` and `@Timed(300)` registration, `sendbus` and `zoe.MessageBuilder` are not modelled. A reply is the payload dictionary itself.
- Directory: `zoe.Users()` is the `Directory` input. The model assumes a user's `preferred` entry, when present, is a string.
- Localization: `gettext`, `_set_locale` and the catalogue's translations are not modelled. Messages are keys plus slot values. A directory failure inside `_set_locale` is not modelled either.
- Clock and logging: `datetime.utcnow()` is the input `now`, and the log lines are dropped.
- Sweep order: TinyDB's document order is the input `order`, which lists every user once.
- Emails.Union: stated on the set of addresses only. Python's list order after `list(set(...))` is unspecified, so the model fixes first-occurrence order and no contract depends on it. This order also decides the order of the sweep's mails.
- Commands.AddMails: a missing `emails` field (`set(None)` raises `TypeError`) is not modelled. The field is a list.
- Commands.SetMsg: a missing `message` field (which stores `None`) is not modelled. The field is a string.
- Dates.Parse: reads ASCII digits only. Python's `\d` also accepts other Unicode decimal digits.
- Commands.RmMails: a missing `emails` field (`set(None)` raises `TypeError` at agents/ice/ice.py:275) is not modelled. The field is a list.
- Sweep.DeliverRecord: builds the owner's `DATE_INVALID` and `ICE_SENT` notices with the corrected `_feedback`, so an owner missing from the directory gets no notice and the sweep goes on. As written it raises `AttributeError` and ends the sweep; `Sweep.DeliverRecordAsWritten` and `Sweep.DeliverAsWritten` model that.
- Sweep.DeliverCovers: is about the corrected sweep. As written it holds only when every enabled owner is in the directory (`Sweep.AsWrittenAgrees`).
- Sweep.ArmedSweepIsClean: is about the corrected sweep. The as-written counterpart, `Sweep.ArmedSweepIsCleanAsWritten`, needs every enabled owner in the directory.
- Sweep.SweepRepeats: is about the corrected sweep. As written, an earlier due record with an unknown owner ends the sweep before the user's record is visited.
- Lifecycle.ReachableSweepIsClean: is about the corrected sweep. As written, the sweep still raises `AttributeError` for a due record whose owner is missing from the directory.
- Commands: the replies use the corrected `_feedback`. As written, a command from a user missing from the directory and without a `src` raises `AttributeError` instead of giving no reply (`Feedback.BuildAsWritten`).
- Sweep.DeliverRecord: "single-shot delivery" (disable after sending) is not stated because the code does not do it. See `Sweep.SweepRepeats`.

## Findings

| source | as written | input that shows it | evidently intended | confidence | as-written member | corrected member |
|---|---|---|---|---|---|---|
| agents/ice/ice.py:414-426 | a new record stores its owner under `name`, but lookups and updates query `user`, so no document ever matches | set-msg `hi` for user `u` on an empty table, then get-msg: it shows an empty message, and a second document is appended | one record per user, found and updated by `user` | high; not executed | DocStore.UpdateIsLost | Records.UpdateThenGet |
| agents/ice/ice.py:383 | the unknown-user branch of `_feedback` calls `self.loger`, which does not exist, so it raises `AttributeError` | a due record whose owner is not in `zoe.Users()`: the sweep's `ICE_SENT` notice raises and ends the sweep | log the miss and return `None` | high; not executed | Feedback.BuildAsWritten | Feedback.Build |
| agents/ice/ice.py:222 | get-ice calls `record['emails'].join(', ')` on a list, which raises `AttributeError` | any get-ice with a user | `', '.join(record['emails'])`, then the summary | high; not executed | Commands.GetIceAsWritten | Commands.GetIce |

=== FILE: commands.dfy ===
/**
 * The command handlers of the ICE agent (agents/ice/ice.py:92-361), one pure
 * transition each: the store before, the message fields and the clock in;
 * the store after and what the handler returns (or raises) out.
 *
 * Conventions. A missing `user`, `src` or `subject` is the empty string:
 * ice.py tests all of them with Python truthiness, which treats `None` and
 * "" alike. `now` is the UTC clock in whole seconds since the Unix epoch
 * (see module Dates); `dir` is the user directory `_feedback` consults.
 */
module Commands {
  import opened Wrappers
  import opened Messages
  import opened Emails
  import opened Dates
  import opened Records
  import opened Feedback

  /** What a handler hands back to the dispatcher. */
  datatype Reply = Silent | Replied(payload: Payload) | Raised(error: PyError)

  datatype Outcome = Outcome(store: Store, reply: Reply)

  function Respond(p: Option<Payload>): Reply {
    if p.Some? then Replied(p.value) else Silent
  }

  /** `return self._feedback(text, user, src)`. */
  function Notify(t: Text, user: string, src: string, dir: Directory): Reply {
    Respond(Build(t, user, src, "", dir))
  }

  /** Only `user`'s record may differ, and it exists afterwards. */
  predicate OnlyTouches(after: Store, before: Store, user: string) {
    after.Keys == before.Keys + {user} && after - {user} == before - {user}
  }

  /** add-mails: the stored set gains the given addresses; nothing else changes. */
  function AddMails(store: Store, user: string, emails: seq<string>, src: string, dir: Directory): (o: Outcome)
    ensures user == "" ==> o == Outcome(store, Silent)
    ensures user != "" ==>
      && OnlyTouches(o.store, store, user)
      && Elems(o.store[user].emails) == Elems(Current(store, user).emails) + Elems(emails)
      && NoDup(o.store[user].emails)
      && o.store[user].(emails := Current(store, user).emails) == Current(store, user)
      && o.reply == Notify(Notice(MailsUpdated), user, src, dir)
  {
    if user == "" then Outcome(store, Silent)
    else
      var f := GetRecord(store, user);
      var s := UpdateRecord(f.store, user, NoChange.(emails := Some(Union(f.rec.emails, emails))));
      Outcome(s, Notify(Notice(MailsUpdated), user, src, dir))
  }

  /** rm-mails: the stored set loses the given addresses; nothing else changes. */
  function RmMails(store: Store, user: string, emails: seq<string>, src: string, dir: Directory): (o: Outcome)
    ensures user == "" ==> o == Outcome(store, Silent)
    ensures user != "" ==>
      && OnlyTouches(o.store, store, user)
      && Elems(o.store[user].emails) == Elems(Current(store, user).emails) - Elems(emails)
      && NoDup(o.store[user].emails)
      && o.store[user].(emails := Current(store, user).emails) == Current(store, user)
      && o.reply == Notify(Notice(MailsUpdated), user, src, dir)
  {
    if user == "" then Outcome(store, Silent)
    else
      var f := GetRecord(store, user);
      var s := UpdateRecord(f.store, user, NoChange.(emails := Some(Difference(f.rec.emails, emails))));
      Outcome(s, Notify(Notice(MailsUpdated), user, src, dir))
  }

  /** set-date: a date that does not parse, or whose midnight is not after
      `now`, is refused and nothing is written (the record is not even
      created); a `None` date makes `strptime` raise. Otherwise only `date`
      is written; `enabled` is left alone. */
  function SetDate(store: Store, user: string, date: Option<string>, src: string, now: int, dir: Directory): (o: Outcome)
    ensures user == "" ==> o == Outcome(store, Silent)
    ensures user != "" && date.None? ==> o == Outcome(store, Raised(TypeError))
    ensures user != "" && date.Some? && Parse(date.value).None? ==>
      o == Outcome(store, Notify(Notice(DateInvalid), user, src, dir))
    ensures user != "" && date.Some? && Parse(date.value).Some? && Midnight(Parse(date.value).value) <= now ==>
      o == Outcome(store, Notify(Notice(DateInpast), user, src, dir))
    ensures user != "" && date.Some? && Parse(date.value).Some? && Midnight(Parse(date.value).value) > now ==>
      && OnlyTouches(o.store, store, user)
      && o.store[user] == Current(store, user).(date := date)
      && o.reply == Notify(Notice(DateUpdated), user, src, dir)
  {
    if user == "" then Outcome(store, Silent)
    else if date.None? then Outcome(store, Raised(TypeError))
    else
      match Classify(date.value, now)
      case Invalid => Outcome(store, Notify(Notice(DateInvalid), user, src, dir))
      case InPast => Outcome(store, Notify(Notice(DateInpast), user, src, dir))
      case Future =>
        Outcome(UpdateRecord(store, user, NoChange.(date := date)), Notify(Notice(DateUpdated), user, src, dir))
  }

  /** enable-ice: arms the record exactly when its stored date parses and its
      midnight is after `now`; on DATE_INVALID or DATE_INPAST the record is
      left as the lookup found or created it. A never-set date makes
      `strptime` raise. Only `enabled` can change. */
  function EnableIce(store: Store, user: string, src: string, now: int, dir: Directory): (o: Outcome)
    ensures user == "" ==> o == Outcome(store, Silent)
    ensures user != "" ==>
      var c := Current(store, user);
      && OnlyTouches(o.store, store, user)
      && o.store[user] == c.(enabled := o.store[user].enabled)
      && (o.store[user].enabled <==> c.enabled || (c.date.Some? && Classify(c.date.value, now) == Future))
      && (c.date.None? ==> o.reply == Raised(TypeError))
      && (c.date.Some? && Parse(c.date.value).None? ==>
            o == Outcome(GetRecord(store, user).store, Notify(Notice(DateInvalid), user, src, dir)))
      && (c.date.Some? && Parse(c.date.value).Some? && Midnight(Parse(c.date.value).value) <= now ==>
            o == Outcome(GetRecord(store, user).store, Notify(Notice(DateInpast), user, src, dir)))
      && (c.date.Some? && Parse(c.date.value).Some? && Midnight(Parse(c.date.value).value) > now ==>
            o.store[user].enabled && o.reply == Notify(Notice(IceEnabled), user, src, dir))
  {
    if user == "" then Outcome(store, Silent)
    else
      var f := GetRecord(store, user);
      if f.rec.date.None? then Outcome(f.store, Raised(TypeError))
      else
        match Classify(f.rec.date.value, now)
        case Invalid => Outcome(f.store, Notify(Notice(DateInvalid), user, src, dir))
        case InPast => Outcome(f.store, Notify(Notice(DateInpast), user, src, dir))
        case Future =>
          Outcome(UpdateRecord(f.store, user, NoChange.(enabled := Some(true))), Notify(Notice(IceEnabled), user, src, dir))
  }

  /** disable-ice: disarms unconditionally; `date` and the rest are kept. */
  function DisableIce(store: Store, user: string, src: string, dir: Directory): (o: Outcome)
    ensures user == "" ==> o == Outcome(store, Silent)
    ensures user != "" ==>
      && OnlyTouches(o.store, store, user)
      && !o.store[user].enabled
      && o.store[user].(enabled := Current(store, user).enabled) == Current(store, user)
      && o.reply == Notify(Notice(IceDisabled), user, src, dir)
  {
    if user == "" then Outcome(store, Silent)
    else Outcome(UpdateRecord(store, user, NoChange.(enabled := Some(false))), Notify(Notice(IceDisabled), user, src, dir))
  }

  /** set-msg: overwrites the message and nothing else. */
  function SetMsg(store: Store, user: string, message: string, src: string, dir: Directory): (o: Outcome)
    ensures user == "" ==> o == Outcome(store, Silent)
    ensures user != "" ==>
      && OnlyTouches(o.store, store, user)
      && o.store[user].message == message
      && o.store[user].(message := Current(store, user).message) == Current(store, user)
      && o.reply == Notify(Notice(MsgUpdated), user, src, dir)
  {
    if user == "" then Outcome(store, Silent)
    else Outcome(UpdateRecord(store, user, NoChange.(message := Some(message))), Notify(Notice(MsgUpdated), user, src, dir))
  }

  /** `record['date'] or DATE_NOTSET`. */
  function DateText(date: Option<string>): Text {
    if date.Some? && date.value != "" then Raw(date.value) else Notice(DateNotset)
  }

  /** get-date: shows the stored date, or DATE_NOTSET; only creates the record. */
  function GetDate(store: Store, user: string, src: string, dir: Directory): (o: Outcome)
    ensures user == "" ==> o == Outcome(store, Silent)
    ensures user != "" ==>
      && o.store == GetRecord(store, user).store
      && o.reply == Notify(Say(DateShow, [DateText(Current(store, user).date)]), user, src, dir)
  {
    if user == "" then Outcome(store, Silent)
    else
      var f := GetRecord(store, user);
      Outcome(f.store, Notify(Say(DateShow, [DateText(f.rec.date)]), user, src, dir))
  }

  /** get-msg: shows the stored message; only creates the record. */
  function GetMsg(store: Store, user: string, src: string, dir: Directory): (o: Outcome)
    ensures user == "" ==> o == Outcome(store, Silent)
    ensures user != "" ==>
      && o.store == GetRecord(store, user).store
      && o.reply == Notify(Say(MsgShow, [Raw(Current(store, user).message)]), user, src, dir)
  {
    if user == "" then Outcome(store, Silent)
    else
      var f := GetRecord(store, user);
      Outcome(f.store, Notify(Say(MsgShow, [Raw(f.rec.message)]), user, src, dir))
  }

  /** `sep.join(xs)`. */
  function Join(xs: seq<string>, sep: string): string
    decreases |xs|
  {
    if |xs| == 0 then ""
    else if |xs| == 1 then xs[0]
    else xs[0] + sep + Join(xs[1..], sep)
  }

  /** INFO_RECORD % (addresses, date, status). */
  function Summary(r: Record): Text {
    Say(InfoRecord, [Raw(Join(r.emails, ", ")), DateText(r.date), Notice(if r.enabled then IceEnabled else IceDisabled)])
  }

  /** get-ice as written: `record['emails'].join(', ')` calls `join` on a
      list, which raises `AttributeError` once the record has been fetched. */
  function GetIceAsWritten(store: Store, user: string, src: string, dir: Directory): (o: Outcome)
    ensures user == "" ==> o == Outcome(store, Silent)
    ensures user != "" ==> o.store == GetRecord(store, user).store && o.reply == Raised(AttributeError)
  {
    if user == "" then Outcome(store, Silent)
    else Outcome(GetRecord(store, user).store, Raised(AttributeError))
  }

  /** get-ice as evidently intended (`', '.join(emails)`): a summary of the
      addresses, the date and the enabled flag, sent through `_feedback`. */
  function GetIce(store: Store, user: string, src: string, dir: Directory): (o: Outcome)
    ensures user == "" ==> o == Outcome(store, Silent)
    ensures user != "" ==>
      && o.store == GetRecord(store, user).store
      && !o.reply.Raised?
      && (o.reply.Replied? ==>
            && o.reply.payload.to == user
            && Content(o.reply.payload.body).Say?
            && Content(o.reply.payload.body).key == InfoRecord
            && |Content(o.reply.payload.body).args| == 3
            && Content(o.reply.payload.body).args[0] == Raw(Join(Current(store, user).emails, ", "))
            && Content(o.reply.payload.body).args[1] == DateText(Current(store, user).date)
            && Content(o.reply.payload.body).args[2]
               == Notice(if Current(store, user).enabled then IceEnabled else IceDisabled)
            && o.reply.payload.dst == Relay
            && (o.reply.payload.body.MailBody? <==> Channel(user, src, dir) == Some(MailChannel))
            && (o.reply.payload.body.MailBody? ==> o.reply.payload.body.subject == DefaultSubject))
      && o.reply == Notify(Summary(Current(store, user)), user, src, dir)
      && (o.reply.Silent? <==> src == "" && user !in dir)
  {
    if user == "" then Outcome(store, Silent)
    else
      var f := GetRecord(store, user);
      Outcome(f.store, Notify(Summary(f.rec), user, src, dir))
  }

  /** The subject of the test mail. */
  const TestSubject := "Zoe ICE test"

  /** test-ice: mails the stored message to the user at once, whatever the
      directory, the date or the enabled flag say. */
  function TestIce(store: Store, user: string, dir: Directory): (o: Outcome)
    ensures user == "" ==> o == Outcome(store, Silent)
    ensures user != "" ==>
      && o.store == GetRecord(store, user).store
      && o.reply == Replied(Payload(Relay, user, MailBody(TestSubject, Raw(Current(store, user).message))))
  {
    if user == "" then Outcome(store, Silent)
    else
      var f := GetRecord(store, user);
      Outcome(f.store, Respond(Build(Raw(f.rec.message), user, MailChannel, TestSubject, dir)))
  }

  // ------------------------------------------------- properties across commands

  /** A date set successfully is the date get-date then shows. */
  lemma SetDateThenGetDate(store: Store, user: string, date: string, src: string, now: int, dir: Directory)
    requires user != "" && Classify(date, now) == Future
    ensures GetDate(SetDate(store, user, Some(date), src, now, dir).store, user, src, dir).reply
         == Notify(Say(DateShow, [Raw(date)]), user, src, dir)
  {
  }

  /** A message set is the message get-msg then shows, and the message
      test-ice mails. */
  lemma SetMsgThenRead(store: Store, user: string, message: string, src: string, dir: Directory)
    requires user != ""
    ensures GetMsg(SetMsg(store, user, message, src, dir).store, user, src, dir).reply
         == Notify(Say(MsgShow, [Raw(message)]), user, src, dir)
    ensures TestIce(SetMsg(store, user, message, src, dir).store, user, dir).reply
         == Replied(Payload(Relay, user, MailBody(TestSubject, Raw(message))))
  {
  }

  /** add-mails then rm-mails of the same list leaves the old set minus that
      list, which is the old set exactly when the two were disjoint. */
  lemma AddThenRemove(store: Store, user: string, emails: seq<string>, src: string, dir: Directory)
    requires user != ""
    ensures var after := RmMails(AddMails(store, user, emails, src, dir).store, user, emails, src, dir).store;
      && Elems(after[user].emails) == Elems(Current(store, user).emails) - Elems(emails)
      && (Elems(after[user].emails) == Elems(Current(store, user).emails)
          <==> Elems(Current(store, user).emails) !! Elems(emails))
  {
    var c := Current(store, user).emails;
    var after := RmMails(AddMails(store, user, emails, src, dir).store, user, emails, src, dir).store;
    if Elems(after[user].emails) == Elems(c) {
      forall x | x in Elems(c)
        ensures x !in Elems(emails)
      {
        assert x in Elems(after[user].emails);
      }
    }
  }

  /** The status get-ice shows after enable-ice is the outcome enable-ice
      reported: ICE_ENABLED after a successful enable. */
  lemma EnableThenGetIce(store: Store, user: string, src: string, now: int, dir: Directory)
    requires user != "" && src != ""
    ensures var after := EnableIce(store, user, src, now, dir);
      after.reply == Notify(Notice(IceEnabled), user, src, dir) ==>
        && GetIce(after.store, user, src, dir).reply.Replied?
        && Content(GetIce(after.store, user, src, dir).reply.payload.body).args[2] == Notice(IceEnabled)
  {
  }

  /** After disable-ice, get-ice shows ICE_DISABLED, and the addresses and the
      date the record had before. */
  lemma DisableThenGetIce(store: Store, user: string, src: string, dir: Directory)
    requires user != "" && src != ""
    ensures var shown := GetIce(DisableIce(store, user, src, dir).store, user, src, dir).reply;
      && shown.Replied?
      && Content(shown.payload.body).args
         == [Raw(Join(Current(store, user).emails, ", ")), DateText(Current(store, user).date), Notice(IceDisabled)]
  {
  }
}

=== FILE: dates.dfy ===
/**
 * The delivery date of an ICE record: `datetime.strptime(s, '%Y-%m-%d')`
 * and the comparison of the resulting midnight with `datetime.utcnow()`.
 *
 * Grammar. Python compiles '%Y-%m-%d' into the pattern
 *   (\d\d\d\d)-(1[0-2]|0[1-9]|[1-9])-(3[01]|[12]\d|0[1-9]|[1-9]| [1-9])
 * and rejects any unconsumed suffix, then builds a `datetime`, which rejects
 * year 0 and a day past the end of the month (Gregorian leap years). The model
 * accepts exactly these strings, so it is NOT restricted to the canonical
 * 10-character form: "2099-1-5" and "2099-01- 5" parse too. It reads digits as
 * ASCII only; Python's `\d` would also accept other Unicode decimal digits.
 *
 * Time. `now` is the UTC instant in whole seconds since 1970-01-01T00:00,
 * rounded down. A parsed date is a midnight, a whole number of seconds, so
 * `midnight <= now` is the same verdict as Python's comparison with the
 * microsecond-precise `utcnow()`.
 */
module Dates {
  import opened Wrappers

  /** A calendar day; `strptime` yields its midnight. */
  datatype Date = Date(year: int, month: int, day: int)

  const MinYear := 1
  const MaxYear := 9999
  const SecondsPerDay := 86400
  /** Proleptic Gregorian day number of 1970-01-01, counting 0001-01-01 as day 1. */
  const EpochOrdinal := 719163

  predicate IsLeap(y: int) {
    y % 4 == 0 && (y % 100 != 0 || y % 400 == 0)
  }

  function DaysInMonth(y: int, m: int): int
    requires 1 <= m <= 12
  {
    if m == 2 then (if IsLeap(y) then 29 else 28)
    else if m == 4 || m == 6 || m == 9 || m == 11 then 30
    else 31
  }

  /** The dates `datetime` can represent. */
  predicate Valid(d: Date) {
    && MinYear <= d.year <= MaxYear
    && 1 <= d.month <= 12
    && 1 <= d.day <= DaysInMonth(d.year, d.month)
  }

  // ---------------------------------------------------------------- parsing

  predicate IsDigit(c: char) {
    '0' <= c <= '9'
  }

  function Digit(c: char): int
    requires IsDigit(c)
  {
    c as int - '0' as int
  }

  /** `%Y`: exactly four digits. */
  function YearField(t: string): Option<int> {
    if |t| == 4 && IsDigit(t[0]) && IsDigit(t[1]) && IsDigit(t[2]) && IsDigit(t[3])
    then Some(1000 * Digit(t[0]) + 100 * Digit(t[1]) + 10 * Digit(t[2]) + Digit(t[3]))
    else None
  }

  /** `%m`: 1..9, 01..09 or 10..12. */
  function MonthField(t: string): Option<int> {
    if |t| == 1 && '1' <= t[0] <= '9' then Some(Digit(t[0]))
    else if |t| == 2 && t[0] == '0' && '1' <= t[1] <= '9' then Some(Digit(t[1]))
    else if |t| == 2 && t[0] == '1' && '0' <= t[1] <= '2' then Some(10 + Digit(t[1]))
    else None
  }

  /** `%d`: 1..9, 01..09, " 1".." 9", 10..29, 30 or 31. */
  function DayField(t: string): Option<int> {
    if |t| == 1 && '1' <= t[0] <= '9' then Some(Digit(t[0]))
    else if |t| == 2 && (t[0] == '0' || t[0] == ' ') && '1' <= t[1] <= '9' then Some(Digit(t[1]))
    else if |t| == 2 && (t[0] == '1' || t[0] == '2') && IsDigit(t[1]) then Some(10 * Digit(t[0]) + Digit(t[1]))
    else if |t| == 2 && t[0] == '3' && (t[1] == '0' || t[1] == '1') then Some(30 + Digit(t[1]))
    else None
  }

  /** `strptime(s, '%Y-%m-%d')`: `None` where Python raises `ValueError`. */
  function Parse(s: string): (r: Option<Date>)
    ensures r.Some? ==> Valid(r.value)
  {
    if |s| < 7 || s[4] != '-' then None
    else
      // The month field holds only digits, so it ends at the second '-'.
      var split := if s[6] == '-' then 6 else 7;
      if split >= |s| || s[split] != '-' then None
      else
        match (YearField(s[..4]), MonthField(s[5..split]), DayField(s[split + 1..]))
        case (Some(y), Some(m), Some(d)) =>
          if Valid(Date(y, m, d)) then Some(Date(y, m, d)) else None
        case _ => None
  }

  // --------------------------------------------------------- canonical form

  function DigitChar(n: int): (c: char)
    requires 0 <= n <= 9
    ensures IsDigit(c) && Digit(c) == n
  {
    ('0' as int + n) as char
  }

  /** The form `YYYY-MM-DD` with zero padding. */
  predicate Canonical(s: string) {
    && |s| == 10 && s[4] == '-' && s[7] == '-'
    && IsDigit(s[0]) && IsDigit(s[1]) && IsDigit(s[2]) && IsDigit(s[3])
    && IsDigit(s[5]) && IsDigit(s[6]) && IsDigit(s[8]) && IsDigit(s[9])
  }

  /** Writes a date in the canonical form, as `date.isoformat()` writes it. */
  function Format(d: Date): (s: string)
    requires Valid(d)
    ensures Canonical(s)
  {
    YearDigits(d.year);
    [DigitChar(d.year / 10 / 10 / 10), DigitChar(d.year / 10 / 10 % 10), DigitChar(d.year / 10 % 10),
     DigitChar(d.year % 10), '-', DigitChar(d.month / 10), DigitChar(d.month % 10), '-',
     DigitChar(d.day / 10), DigitChar(d.day % 10)]
  }

  /** Division by ten is unique. */
  lemma DivTen(n: int, q: int, r: int)
    requires 0 <= r < 10 && n == 10 * q + r
    ensures n / 10 == q && n % 10 == r
  {
  }

  /** The four decimal digits of a year, most significant first, make up
      the year. */
  lemma YearDigits(y: int)
    requires 0 <= y <= 9999
    ensures 0 <= y / 10 / 10 / 10 <= 9
    ensures 1000 * (y / 10 / 10 / 10) + 100 * (y / 10 / 10 % 10) + 10 * (y / 10 % 10) + y % 10 == y
  {
    var q1 := y / 10;
    var q2 := q1 / 10;
    assert y == 10 * q1 + y % 10;
    assert q1 == 10 * q2 + q1 % 10;
    assert q2 == 10 * (q2 / 10) + q2 % 10;
  }

  lemma FourDigits(a: int, b: int, c: int, d: int)
    requires 0 <= a <= 9 && 0 <= b <= 9 && 0 <= c <= 9 && 0 <= d <= 9
    ensures var n := 1000 * a + 100 * b + 10 * c + d;
      n / 10 / 10 / 10 == a && n / 10 / 10 % 10 == b && n / 10 % 10 == c && n % 10 == d
  {
    DivTen(1000 * a + 100 * b + 10 * c + d, 100 * a + 10 * b + c, d);
    DivTen(100 * a + 10 * b + c, 10 * a + b, c);
    DivTen(10 * a + b, a, b);
  }

  lemma TwoDigits(a: int, b: int)
    requires 0 <= a <= 9 && 0 <= b <= 9
    ensures (10 * a + b) / 10 == a && (10 * a + b) % 10 == b
  {
    DivTen(10 * a + b, a, b);
  }

  /** Every representable date written canonically parses back to itself. */
  lemma ParseFormat(d: Date)
    requires Valid(d)
    ensures Parse(Format(d)) == Some(d)
  {
    var s := Format(d);
    assert s[6] != '-';
    assert s[..4] == [s[0], s[1], s[2], s[3]];
    assert s[5..7] == [s[5], s[6]];
    assert s[8..] == [s[8], s[9]];
    YearDigits(d.year);
    assert YearField(s[..4]) == Some(d.year);
    assert d.month == 10 * (d.month / 10) + d.month % 10;
    assert MonthField(s[5..7]) == Some(d.month);
    assert d.day == 10 * (d.day / 10) + d.day % 10;
    assert DayField(s[8..]) == Some(d.day);
  }

  lemma DigitCharOf(c: char)
    requires IsDigit(c)
    ensures DigitChar(Digit(c)) == c
  {
  }

  /** A canonical string that parses is the canonical writing of its date:
      on canonical strings, parsing and formatting are inverse. */
  lemma FormatParse(s: string)
    requires Canonical(s) && Parse(s).Some?
    ensures Format(Parse(s).value) == s
  {
    var d := Parse(s).value;
    assert s[..4] == [s[0], s[1], s[2], s[3]];
    assert s[5..7] == [s[5], s[6]];
    assert s[8..] == [s[8], s[9]];
    assert d.year == 1000 * Digit(s[0]) + 100 * Digit(s[1]) + 10 * Digit(s[2]) + Digit(s[3]);
    assert d.month == 10 * Digit(s[5]) + Digit(s[6]);
    assert d.day == 10 * Digit(s[8]) + Digit(s[9]);
    FourDigits(Digit(s[0]), Digit(s[1]), Digit(s[2]), Digit(s[3]));
    TwoDigits(Digit(s[5]), Digit(s[6]));
    TwoDigits(Digit(s[8]), Digit(s[9]));
    DigitCharOf(s[0]); DigitCharOf(s[1]); DigitCharOf(s[2]); DigitCharOf(s[3]);
    DigitCharOf(s[5]); DigitCharOf(s[6]); DigitCharOf(s[8]); DigitCharOf(s[9]);
  }

  // --------------------------------------------------------------- day count

  /** Days in the years before `y` (Python's `_days_before_year`). */
  function DaysBeforeYear(y: int): int
    requires y >= 1
  {
    var p := y - 1;
    365 * p + p / 4 - p / 100 + p / 400
  }

  /** Days in the months of year `y` before month `m` (Python's `_days_before_month`). */
  function DaysBeforeMonth(y: int, m: int): int
    requires 1 <= m <= 12
  {
    [0, 31, 59, 90, 120, 151, 181, 212, 243, 273, 304, 334][m - 1]
      + (if m > 2 && IsLeap(y) then 1 else 0)
  }

  /** Day number of a date, 0001-01-01 being day 1 (Python's `date.toordinal`). */
  function Ordinal(d: Date): int
    requires Valid(d)
  {
    DaysBeforeYear(d.year) + DaysBeforeMonth(d.year, d.month) + d.day
  }

  /** The midnight that `strptime` returns, in seconds since the Unix epoch. */
  function Midnight(d: Date): int
    requires Valid(d)
  {
    (Ordinal(d) - EpochOrdinal) * SecondsPerDay
  }

  /** Calendar order, as Python compares `datetime` values field by field. */
  predicate Before(a: Date, b: Date) {
    || a.year < b.year
    || (a.year == b.year && a.month < b.month)
    || (a.year == b.year && a.month == b.month && a.day < b.day)
  }

  lemma YearLength(y: int)
    requires y >= 1
    ensures DaysBeforeYear(y + 1) - DaysBeforeYear(y) == if IsLeap(y) then 366 else 365
  {
    var p := y - 1;
    assert (p + 1) / 4 - p / 4 == if y % 4 == 0 then 1 else 0;
    assert (p + 1) / 100 - p / 100 == if y % 100 == 0 then 1 else 0;
    assert (p + 1) / 400 - p / 400 == if y % 400 == 0 then 1 else 0;
  }

  lemma {:induction false} DaysBeforeYearGrows(a: int, b: int)
    requires 1 <= a < b
    ensures DaysBeforeYear(a) + 365 <= DaysBeforeYear(b)
    decreases b - a
  {
    YearLength(a);
    if a + 1 < b {
      DaysBeforeYearGrows(a + 1, b);
    }
  }

  /** The last day of a year comes right before the first day of the next. */
  lemma YearEnd(d: Date)
    requires Valid(d)
    ensures Ordinal(d) <= DaysBeforeYear(d.year + 1)
  {
    YearLength(d.year);
  }

  /** Day numbers follow the calendar: an earlier date has a smaller number. */
  lemma OrdinalMonotone(a: Date, b: Date)
    requires Valid(a) && Valid(b) && Before(a, b)
    ensures Ordinal(a) < Ordinal(b)
  {
    if a.year < b.year {
      YearEnd(a);
      DaysBeforeYearGrows(a.year, b.year);
    }
  }

  /** Comparing midnights in seconds is comparing dates in the calendar,
      in both directions. */
  lemma MidnightOrder(a: Date, b: Date)
    requires Valid(a) && Valid(b)
    ensures Before(a, b) <==> Midnight(a) < Midnight(b)
  {
    if Before(a, b) {
      OrdinalMonotone(a, b);
    } else if Before(b, a) {
      OrdinalMonotone(b, a);
    } else {
      assert a == b;
    }
  }

  /** A date's midnight is at or before an instant on day `today` exactly when
      the date is `today` or earlier: "in the past" includes today. */
  lemma InPastMeansTodayOrEarlier(d: Date, today: Date, secs: int)
    requires Valid(d) && Valid(today) && 0 <= secs < SecondsPerDay
    ensures Midnight(d) <= Midnight(today) + secs <==> !Before(today, d)
  {
    if Before(today, d) {
      OrdinalMonotone(today, d);
    } else if Before(d, today) {
      OrdinalMonotone(d, today);
    } else {
      assert d == today;
    }
  }

  // ------------------------------------------------------------ date checks

  /** How a stored date string fares against the clock. */
  datatype Check = Invalid | InPast | Future

  /** The two tests ice.py applies in turn: does it parse, and is its
      midnight strictly after `now`? */
  function Classify(s: string, now: int): (c: Check)
    ensures c == Invalid <==> Parse(s).None?
    ensures c == Future <==> Parse(s).Some? && Midnight(Parse(s).value) > now
  {
    match Parse(s)
    case None => Invalid
    case Some(d) => if Midnight(d) <= now then InPast else Future
  }

  /** A date already in the past stays in the past as the clock advances. */
  lemma PastStaysPast(s: string, now: int, later: int)
    requires Classify(s, now) == InPast && now <= later
    ensures Classify(s, later) == InPast
  {
  }
}

=== FILE: docstore.dfy ===
/**
 * The TinyDB table exactly as ice.py drives it. `_get_record` queries
 * `RECORD.user == user` (agents/ice/ice.py:414) but inserts its new record
 * with the user under `name` (agents/ice/ice.py:420-426); `_update_record`
 * writes with the same `user` query (agents/ice/ice.py:473). No document
 * ever gets a `user` field, so every lookup misses and inserts yet another
 * default document, and every update matches nothing. Module Records models
 * the store the docstrings describe instead.
 */
module DocStore {
  import opened Wrappers
  import opened Records

  /** The field a document carries its owner under. */
  datatype KeyField = NameField | UserField

  datatype Doc = Doc(field: KeyField, owner: string, rec: Record)

  type Table = seq<Doc>

  /** `RECORD.user == user`. */
  predicate Matches(d: Doc, user: string) {
    d.field == UserField && d.owner == user
  }

  /** `db.get(RECORD.user == user)`: the first matching document. */
  function Find(t: Table, user: string): Option<Record>
    decreases |t|
  {
    if |t| == 0 then None
    else if Matches(t[0], user) then Some(t[0].rec)
    else Find(t[1..], user)
  }

  /** A document that does not match is invisible to a lookup. */
  lemma {:induction false} FindSkips(t: Table, d: Doc, user: string)
    requires !Matches(d, user)
    ensures Find(t + [d], user) == Find(t, user)
    decreases |t|
  {
    if |t| > 0 {
      assert (t + [d])[1..] == t[1..] + [d];
      FindSkips(t[1..], d, user);
    }
  }

  /** `_get_record` as written: a hit returns the stored record; a miss
      returns the defaults and appends a document that the same query still
      cannot find. Existing documents are never touched. */
  function GetRecordAsWritten(t: Table, user: string): (r: (Table, Record))
    ensures |r.0| == |t| + (if Find(t, user).None? then 1 else 0)
    ensures r.0[..|t|] == t
    ensures Find(t, user).Some? ==> r.1 == Find(t, user).value
    ensures Find(t, user).None? ==> r.1 == Default && r.0[|t|].owner == user
    ensures Find(r.0, user) == Find(t, user)
  {
    match Find(t, user)
    case Some(r) => (t, r)
    case None =>
      FindSkips(t, Doc(NameField, user, Default), user);
      (t + [Doc(NameField, user, Default)], Default)
  }

  /** `db.update(data, RECORD.user == user)`. */
  function ApplyUpdate(t: Table, user: string, p: Patch): (r: Table)
    ensures |r| == |t|
    ensures forall i :: 0 <= i < |t| && Matches(t[i], user) ==> r[i] == t[i].(rec := Merge(t[i].rec, p))
    ensures forall i :: 0 <= i < |t| && !Matches(t[i], user) ==> r[i] == t[i]
    decreases |t|
  {
    if |t| == 0 then []
    else
      var d := if Matches(t[0], user) then t[0].(rec := Merge(t[0].rec, p)) else t[0];
      [d] + ApplyUpdate(t[1..], user, p)
  }

  /** `_update_record` as written. */
  function UpdateRecordAsWritten(t: Table, user: string, p: Patch): (r: Table)
    ensures |r| == |t| + (if Find(t, user).None? then 1 else 0)
    ensures forall i :: 0 <= i < |t| && Matches(t[i], user) ==> r[i] == t[i].(rec := Merge(t[i].rec, p))
    ensures forall i :: 0 <= i < |t| && !Matches(t[i], user) ==> r[i] == t[i]
    ensures Find(t, user).None? ==> r[|t|] == Doc(NameField, user, Default)
  {
    ApplyUpdate(GetRecordAsWritten(t, user).0, user, p)
  }

  /** Tables the code can produce: no document has a `user` field. */
  predicate NoUserField(t: Table) {
    forall i :: 0 <= i < |t| ==> t[i].field == NameField
  }

  lemma {:induction false} FindMisses(t: Table, user: string)
    requires NoUserField(t)
    ensures Find(t, user) == None
    decreases |t|
  {
    if |t| > 0 {
      FindMisses(t[1..], user);
    }
  }

  lemma {:induction false} UpdateMatchesNothing(t: Table, user: string, p: Patch)
    requires NoUserField(t)
    ensures ApplyUpdate(t, user, p) == t
    decreases |t|
  {
    if |t| > 0 {
      UpdateMatchesNothing(t[1..], user, p);
    }
  }

  /** As written, every lookup returns a fresh default and grows the table. */
  lemma LookupAlwaysMisses(t: Table, user: string)
    requires NoUserField(t)
    ensures GetRecordAsWritten(t, user) == (t + [Doc(NameField, user, Default)], Default)
    ensures NoUserField(GetRecordAsWritten(t, user).0)
  {
    FindMisses(t, user);
  }

  /** As written, an update is lost: the next lookup still sees the
      defaults (e.g. set-msg followed by get-msg shows an empty message),
      whereas the keyed store returns the merged record. */
  lemma UpdateIsLost(t: Table, user: string, p: Patch)
    requires NoUserField(t)
    ensures GetRecordAsWritten(UpdateRecordAsWritten(t, user, p), user).1 == Default
  {
    LookupAlwaysMisses(t, user);
    var t1 := GetRecordAsWritten(t, user).0;
    UpdateMatchesNothing(t1, user, p);
    LookupAlwaysMisses(t1, user);
  }

  /** The concrete counterexample: a message set on an empty table is gone,
      while the keyed store keeps it. */
  lemma SetMessageIsLost()
    ensures GetRecordAsWritten(UpdateRecordAsWritten([], "u", NoChange.(message := Some("hi"))), "u").1.message == ""
    ensures GetRecord(UpdateRecord(map[], "u", NoChange.(message := Some("hi"))), "u").rec.message == "hi"
  {
    UpdateIsLost([], "u", NoChange.(message := Some("hi")));
  }
}

=== FILE: emails.dfy ===
/**
 * The recipient list of an ICE record. ice.py stores it as a Python list
 * but always rebuilds it through `set(...)`, so it behaves as a set: these
 * functions compute the same set and return it as a duplicate-free sequence.
 * Python's set iteration order is unspecified; the model keeps the order of
 * first occurrence, and no contract below depends on that choice.
 */
module Emails {

  /** No address occurs twice. */
  predicate NoDup<T(==)>(s: seq<T>) {
    forall i, j :: 0 <= i < j < |s| ==> s[i] != s[j]
  }

  /** The set a list stands for (Python's `set(s)`). */
  function Elems<T>(s: seq<T>): set<T> {
    set x | x in s
  }

  /** `list(set(s))`: every element once, in order of first occurrence. */
  function Dedup<T(==)>(s: seq<T>): (r: seq<T>)
    ensures NoDup(r)
    ensures Elems(r) == Elems(s)
    decreases |s|
  {
    if |s| == 0 then []
    else
      var init := Dedup(s[..|s| - 1]);
      var last := s[|s| - 1];
      assert s == s[..|s| - 1] + [last];
      assert Elems(s) == Elems(s[..|s| - 1]) + {last};
      if last in init then init else init + [last]
  }

  /** The elements of `s` that are not in `drop`, in order. */
  function Without<T>(s: seq<T>, drop: set<T>): (r: seq<T>)
    ensures Elems(r) == Elems(s) - drop
    decreases |s|
  {
    if |s| == 0 then []
    else
      var head := if s[0] in drop then [] else [s[0]];
      var tail := Without(s[1..], drop);
      assert s == [s[0]] + s[1..];
      assert Elems(s) == {s[0]} + Elems(s[1..]);
      assert Elems(head + tail) == Elems(head) + Elems(tail);
      head + tail
  }

  /** add-mails: `list(set(stored) | set(added))`. */
  function Union(stored: seq<string>, added: seq<string>): (r: seq<string>)
    ensures NoDup(r)
    ensures Elems(r) == Elems(stored) + Elems(added)
  {
    assert Elems(stored + added) == Elems(stored) + Elems(added);
    Dedup(stored + added)
  }

  /** rm-mails: `list(set(stored) - set(removed))`. */
  function Difference(stored: seq<string>, removed: seq<string>): (r: seq<string>)
    ensures NoDup(r)
    ensures Elems(r) == Elems(stored) - Elems(removed)
  {
    Dedup(Without(stored, Elems(removed)))
  }

  /** Adding a list and then removing it leaves the stored set minus that list. */
  lemma RemoveAfterAdd(stored: seq<string>, s: seq<string>)
    ensures Elems(Difference(Union(stored, s), s)) == Elems(stored) - Elems(s)
  {
  }

  /** The add/remove round trip restores the stored set exactly when none of the
      round-tripped addresses was already present. */
  lemma RemoveAfterAddRestores(stored: seq<string>, s: seq<string>)
    ensures Elems(Difference(Union(stored, s), s)) == Elems(stored) <==> Elems(stored) !! Elems(s)
  {
    RemoveAfterAdd(stored, s);
    if Elems(Difference(Union(stored, s), s)) == Elems(stored) {
      forall x | x in Elems(stored)
        ensures x !in Elems(s)
      {
        assert x in Elems(stored) - Elems(s);
      }
    }
  }

  /** Adding the same list twice is the same as adding it once. */
  lemma UnionIdempotent(stored: seq<string>, s: seq<string>)
    ensures Elems(Union(Union(stored, s), s)) == Elems(Union(stored, s))
  {
  }
}

=== FILE: feedback.dfy ===
/**
 * `ICE._feedback` (agents/ice/ice.py:363-398): builds the payload handed to
 * the relay agent. The user directory `zoe.Users()` is an input: it maps each
 * known user to the `preferred` channel stored for them, if any.
 */
module Feedback {
  import opened Wrappers
  import opened Messages

  const Relay := "relay"
  const MailChannel := "mail"
  const DefaultSubject := "Zoe ICE"

  /** Known users and their stored preferred channel. */
  type Directory = map<string, Option<string>>

  /** A mail (`subject`, `txt`) or a same-system notification (`msg`). */
  datatype Body = MailBody(subject: string, txt: Text) | NoteBody(msg: Text)

  /** `{'dst': ..., 'to': ..., ...}`. */
  datatype Payload = Payload(dst: string, to: string, body: Body)

  function Content(b: Body): Text {
    match b
    case MailBody(_, t) => t
    case NoteBody(t) => t
  }

  /** The channel a message goes out on: the explicit destination when one
      is given (an empty string is as absent as `None`), otherwise the user's
      preference, defaulting to mail; `None` for a user the directory lacks. */
  function Channel(user: string, dst: string, dir: Directory): Option<string> {
    if dst != "" then Some(dst)
    else if user in dir then Some(dir[user].GetOr(MailChannel))
    else None
  }

  /** The payload for a resolved channel. */
  function Shape(message: Text, user: string, channel: string, subject: string): Payload {
    if channel == MailChannel then
      Payload(Relay, user, MailBody(if subject != "" then subject else DefaultSubject, message))
    else
      Payload(Relay, user, NoteBody(message))
  }

  /** `_feedback` as evidently intended: an unknown user is logged and
      nothing is sent. */
  function Build(message: Text, user: string, dst: string, subject: string, dir: Directory): (r: Option<Payload>)
    ensures r.None? <==> dst == "" && user !in dir
    ensures r.Some? ==> r.value.dst == Relay && r.value.to == user && Content(r.value.body) == message
    ensures r.Some? && dst != "" ==> (r.value.body.MailBody? <==> dst == MailChannel)
    ensures r.Some? && dst == "" ==> (r.value.body.MailBody? <==> dir[user].GetOr(MailChannel) == MailChannel)
    ensures r.Some? && r.value.body.MailBody? ==>
      r.value.body.subject == if subject != "" then subject else DefaultSubject
  {
    match Channel(user, dst, dir)
    case None => None
    case Some(channel) => Some(Shape(message, user, channel, subject))
  }

  /** What `_feedback` returns or raises. */
  datatype Built = Built(payload: Option<Payload>) | Failed(error: PyError)

  /** `_feedback` as written: the unknown-user branch calls `self.loger`,
      which the agent does not have, so it raises `AttributeError` instead of
      logging. */
  function BuildAsWritten(message: Text, user: string, dst: string, subject: string, dir: Directory): (r: Built)
    ensures r.Failed? <==> dst == "" && user !in dir
  {
    match Channel(user, dst, dir)
    case None => Failed(AttributeError)
    case Some(channel) => Built(Some(Shape(message, user, channel, subject)))
  }

  /** The two versions differ exactly on the unknown-user path: there the
      written code raises where the intended one sends nothing. */
  lemma AsWrittenDiffersOnlyForUnknownUser(message: Text, user: string, dst: string, subject: string, dir: Directory)
    ensures dst == "" && user !in dir ==>
      BuildAsWritten(message, user, dst, subject, dir) == Failed(AttributeError)
      && Build(message, user, dst, subject, dir) == None
    ensures dst != "" || user in dir ==>
      BuildAsWritten(message, user, dst, subject, dir) == Built(Build(message, user, dst, subject, dir))
  {
  }

  /** The concrete case: the sweep's ICE_SENT notice for an owner missing from
      the directory. */
  lemma UnknownOwnerRaises()
    ensures BuildAsWritten(Notice(IceSent), "nobody", "", "", map[]) == Failed(AttributeError)
    ensures Build(Notice(IceSent), "nobody", "", "", map[]) == None
  {
  }
}

=== FILE: lifecycle.dfy ===
/**
 * The record lifecycle as a whole: the command tags the agent answers
 * (agents/ice/ice.py:92-361), the store a sequence of commands reaches from
 * an empty table, and the invariant every such store keeps, "an enabled
 * record has a date that parses". Sweeps write nothing, so interleaving them
 * with commands reaches no other stores.
 */
module Lifecycle {
  import opened Wrappers
  import opened Messages
  import opened Records
  import opened Feedback
  import opened Emails
  import opened Sweep
  import C = Commands

  /** One inbound message, by tag, with the fields its handler reads. */
  datatype Command =
    | AddMails(user: string, emails: seq<string>, src: string)
    | RmMails(user: string, emails: seq<string>, src: string)
    | SetDate(user: string, date: Option<string>, src: string)
    | EnableIce(user: string, src: string)
    | DisableIce(user: string, src: string)
    | SetMsg(user: string, message: string, src: string)
    | GetDate(user: string, src: string)
    | GetMsg(user: string, src: string)
    | GetIce(user: string, src: string)
    | TestIce(user: string)

  /** Dispatch a command to its handler. */
  function Step(store: Store, cmd: Command, now: int, dir: Directory): C.Outcome {
    match cmd
    case AddMails(u, e, s) => C.AddMails(store, u, e, s, dir)
    case RmMails(u, e, s) => C.RmMails(store, u, e, s, dir)
    case SetDate(u, d, s) => C.SetDate(store, u, d, s, now, dir)
    case EnableIce(u, s) => C.EnableIce(store, u, s, now, dir)
    case DisableIce(u, s) => C.DisableIce(store, u, s, dir)
    case SetMsg(u, m, s) => C.SetMsg(store, u, m, s, dir)
    case GetDate(u, s) => C.GetDate(store, u, s, dir)
    case GetMsg(u, s) => C.GetMsg(store, u, s, dir)
    case GetIce(u, s) => C.GetIce(store, u, s, dir)
    case TestIce(u) => C.TestIce(store, u, dir)
  }

  /** A command and the clock reading when it is handled. */
  datatype Event = Event(cmd: Command, now: int)

  /** The store after handling `events` in order. A handler that raises has
      still written what it wrote before raising. */
  function Run(store: Store, events: seq<Event>, dir: Directory): Store
    decreases |events|
  {
    if |events| == 0 then store
    else Run(Step(store, events[0].cmd, events[0].now, dir).store, events[1..], dir)
  }

  /** Every record is armed only with a date that parses. */
  predicate Inv(store: Store) {
    forall u :: u in store ==> Armed(store[u])
  }

  /** Every handler keeps the invariant. The two that can arm or re-date a
      record do so only through a successful parse. */
  lemma StepPreservesInv(store: Store, cmd: Command, now: int, dir: Directory)
    requires Inv(store)
    ensures Inv(Step(store, cmd, now, dir).store)
  {
    var after := Step(store, cmd, now, dir).store;
    forall u | u in after
      ensures Armed(after[u])
    {
      if u in store {
        assert Armed(store[u]);
      }
    }
  }

  /** Runs of commands keep the invariant. */
  lemma {:induction false} RunPreservesInv(store: Store, events: seq<Event>, dir: Directory)
    requires Inv(store)
    ensures Inv(Run(store, events, dir))
    decreases |events|
  {
    if |events| > 0 {
      StepPreservesInv(store, events[0].cmd, events[0].now, dir);
      RunPreservesInv(Step(store, events[0].cmd, events[0].now, dir).store, events[1..], dir);
    }
  }

  /** Every store reachable from the empty table satisfies the invariant;
      the defaults a lookup creates are disabled. */
  lemma ReachableIsArmed(events: seq<Event>, dir: Directory)
    ensures Inv(Run(map[], events, dir))
  {
    RunPreservesInv(map[], events, dir);
  }

  /** Consequently, on a reachable store the sweep's `strptime` never raises
      and its DATE_INVALID branch is dead. */
  lemma ReachableSweepIsClean(events: seq<Event>, dir: Directory, order: seq<string>, now: int, sweepDir: Directory)
    requires Enumerates(order, Run(map[], events, dir))
    ensures Deliver(Run(map[], events, dir), order, now, sweepDir).raised == None
    ensures forall p :: p in Deliver(Run(map[], events, dir), order, now, sweepDir).sent ==>
      Content(p.body) != Notice(DateInvalid)
  {
    var store := Run(map[], events, dir);
    ReachableIsArmed(events, dir);
    forall i | 0 <= i < |order|
      ensures order[i] in store
    {
      assert order[i] in Elems(order);
    }
    ArmedSweepIsClean(store, order, now, sweepDir);
  }

  /** A message without a user is ignored by every command: no reply, and the
      store is untouched. */
  lemma NoUserNoEffect(store: Store, cmd: Command, now: int, dir: Directory)
    ensures cmd.user == "" ==> Step(store, cmd, now, dir) == C.Outcome(store, C.Silent)
  {
  }
}

=== FILE: messages.dfy ===
/**
 * The message catalogue of the ICE agent (agents/ice/helper/messsages.py and
 * agents/ice/lib/helper/messages.py). Each constant there is a gettext key,
 * some with `%s` slots; the model keeps the key and the values filled into
 * its slots, and leaves translation to the host.
 */
module Messages {

  datatype MsgKey =
    | DateInpast
    | DateInvalid
    | DateNotset
    | DateShow      // one slot: the date
    | DateUpdated
    | IceDisabled
    | IceEnabled
    | IceSent
    | InfoRecord    // three slots: addresses, date, status
    | MailsUpdated
    | MsgShow       // one slot: the message
    | MsgUpdated

  /** The text of an outbound message: a catalogue entry with its slot values
      (`KEY % (a, b)`), or text the user wrote, sent verbatim. */
  datatype Text = Say(key: MsgKey, args: seq<Text>) | Raw(s: string)

  /** A catalogue entry without slots. */
  function Notice(k: MsgKey): Text {
    Say(k, [])
  }

  /** The uncaught Python exceptions the core can raise. */
  datatype PyError = TypeError | AttributeError
}

=== FILE: records.dfy ===
/**
 * The per-user ICE record and the record store, as the docstrings of
 * `_get_record` and `_update_record` describe them (agents/ice/ice.py:400-431,
 * 454-475): one record per user, keyed by the user, created with defaults on
 * first access. The TinyDB table ice.py actually writes inserts new
 * records under a `name` field but queries the `user` field, so none of its
 * lookups or updates ever match; module DocStore models that as written.
 * Every access is one atomic step here (the reader/writer lock is left out).
 */
module Records {
  import opened Wrappers

  /** One user's ICE settings. `date` is the string as the user gave it. */
  datatype Record = Record(emails: seq<string>, message: string, enabled: bool, date: Option<string>)

  /** The record `_get_record` creates for a user seen for the first time. */
  const Default := Record([], "", false, None)

  type Store = map<string, Record>

  /** The record a lookup of `user` yields. */
  function Current(store: Store, user: string): Record {
    if user in store then store[user] else Default
  }

  /** A store after a lookup, with the record found or created. */
  datatype Fetched = Fetched(store: Store, rec: Record)

  /** `_get_record`: the user's record, inserted with defaults if missing. */
  function GetRecord(store: Store, user: string): (f: Fetched)
    ensures f.store.Keys == store.Keys + {user}
    ensures f.store - {user} == store - {user}
    ensures f.rec == f.store[user]
    ensures user in store ==> f.store == store && f.rec == store[user]
    ensures user !in store ==> f.rec == Default
  {
    if user in store then Fetched(store, store[user])
    else Fetched(store[user := Default], Default)
  }

  /** The keyword arguments of an `_update_record` call: the fields to
      overwrite. */
  datatype Patch = Patch(
    emails: Option<seq<string>>,
    message: Option<string>,
    enabled: Option<bool>,
    date: Option<string>)

  const NoChange := Patch(None, None, None, None)

  /** `record.update(data)`. */
  function Merge(r: Record, p: Patch): Record {
    Record(
      p.emails.GetOr(r.emails),
      p.message.GetOr(r.message),
      p.enabled.GetOr(r.enabled),
      if p.date.Some? then p.date else r.date)
  }

  /** `_update_record`: make sure the record exists, then overwrite the
      patched fields of it and of nothing else. */
  function UpdateRecord(store: Store, user: string, p: Patch): (s: Store)
    ensures s.Keys == store.Keys + {user}
    ensures s - {user} == store - {user}
    ensures p.emails.Some? ==> s[user].emails == p.emails.value
    ensures p.emails.None? ==> s[user].emails == Current(store, user).emails
    ensures p.message.Some? ==> s[user].message == p.message.value
    ensures p.message.None? ==> s[user].message == Current(store, user).message
    ensures p.enabled.Some? ==> s[user].enabled == p.enabled.value
    ensures p.enabled.None? ==> s[user].enabled == Current(store, user).enabled
    ensures p.date.Some? ==> s[user].date == p.date
    ensures p.date.None? ==> s[user].date == Current(store, user).date
  {
    var f := GetRecord(store, user);
    f.store[user := Merge(f.rec, p)]
  }

  /** A lookup only ever creates: looking up twice is looking up once. */
  lemma GetRecordIdempotent(store: Store, user: string)
    ensures GetRecord(GetRecord(store, user).store, user) == GetRecord(store, user)
  {
  }

  /** An update is seen by the next lookup of the same user. */
  lemma UpdateThenGet(store: Store, user: string, p: Patch)
    ensures GetRecord(UpdateRecord(store, user, p), user).rec == Merge(Current(store, user), p)
  {
  }

  /** An empty patch changes no field: it only creates the record. */
  lemma EmptyPatchOnlyCreates(store: Store, user: string)
    ensures UpdateRecord(store, user, NoChange) == GetRecord(store, user).store
  {
  }
}

=== FILE: scenarios.dfy ===
/**
 * Worked examples of the model on concrete inputs: the date grammar's edge
 * cases and the ICE life of one user, with the clock at 2026-10-10T00:00Z.
 */
module Scenarios {
  import opened Wrappers
  import opened Messages
  import opened Dates
  import opened Records
  import opened Feedback
  import opened Sweep
  import C = Commands

  /** 2026-10-10T00:00:00Z in seconds since the Unix epoch. */
  const Today := 1791590400

  /** The epoch is day 719163 and 2026-10-10 starts at `Today`. */
  lemma Calendar()
    ensures Ordinal(Date(1970, 1, 1)) == EpochOrdinal
    ensures Midnight(Date(2026, 10, 10)) == Today
  {
  }

  /** strptime's grammar: short and space-padded fields are accepted;
      out-of-range fields, year 0, 29 February of a common year and trailing
      text are refused. */
  lemma DateGrammar()
    ensures Parse("2099-01-05") == Some(Date(2099, 1, 5))
    ensures Parse("2099-1-5") == Some(Date(2099, 1, 5))
    ensures Parse("2099-01- 5") == Some(Date(2099, 1, 5))
    ensures Parse("2096-02-29") == Some(Date(2096, 2, 29))
    ensures Parse("2099-02-29") == None
    ensures Parse("0000-01-01") == None
    ensures Parse("2099-13-40") == None
    ensures Parse("2099-01-5x") == None
  {
    assert "2099-01-05"[..4] == "2099" && "2099-01-05"[5..7] == "01" && "2099-01-05"[8..] == "05";
    assert "2099-1-5"[..4] == "2099" && "2099-1-5"[5..6] == "1" && "2099-1-5"[7..] == "5";
    assert "2099-01- 5"[..4] == "2099" && "2099-01- 5"[5..7] == "01" && "2099-01- 5"[8..] == " 5";
    assert "2096-02-29"[..4] == "2096" && "2096-02-29"[5..7] == "02" && "2096-02-29"[8..] == "29";
    assert "2099-02-29"[..4] == "2099" && "2099-02-29"[5..7] == "02" && "2099-02-29"[8..] == "29";
    assert "0000-01-01"[..4] == "0000";
    assert "2099-13-40"[5..7] == "13";
    assert "2099-01-5x"[8..] == "5x";
  }

  /** A future date is stored. */
  lemma SetFutureDate(dir: Directory)
    ensures C.SetDate(map[], "ann", Some("2099-01-01"), "jabber", Today, dir).store
         == map["ann" := Default.(date := Some("2099-01-01"))]
  {
    assert "2099-01-01"[..4] == "2099" && "2099-01-01"[5..7] == "01" && "2099-01-01"[8..] == "01";
    assert Parse("2099-01-01") == Some(Date(2099, 1, 1));
    assert Midnight(Date(2099, 1, 1)) > Today;
  }

  /** An impossible date is refused and the store is left as it was. */
  lemma SetImpossibleDate(dir: Directory)
    ensures C.SetDate(map[], "ann", Some("2099-13-40"), "jabber", Today, dir)
         == C.Outcome(map[], C.Notify(Notice(DateInvalid), "ann", "jabber", dir))
  {
    assert "2099-13-40"[5..7] == "13";
    assert Parse("2099-13-40") == None;
  }

  /** A past date is refused and the store is left as it was. */
  lemma SetPastDate(dir: Directory)
    ensures C.SetDate(map[], "ann", Some("2000-01-01"), "jabber", Today, dir)
         == C.Outcome(map[], C.Notify(Notice(DateInpast), "ann", "jabber", dir))
  {
    assert "2000-01-01"[..4] == "2000" && "2000-01-01"[5..7] == "01" && "2000-01-01"[8..] == "01";
    assert Parse("2000-01-01") == Some(Date(2000, 1, 1));
    assert Midnight(Date(2000, 1, 1)) <= Today;
  }

  /** Armed for yesterday: two mails with the stored message, then the
      ICE_SENT notice by mail (the owner has no preference); the record stays
      enabled, so the next sweep sends the same again. */
  lemma SweepDueRecord()
    ensures var store := map["ann" := Record(["a@x.com", "b@x.com"], "hi", true, Some("2026-10-09"))];
      Deliver(store, ["ann"], Today, map["ann" := None]) == Delivery(
        [IceMail("a@x.com", "hi"), IceMail("b@x.com", "hi"),
         Payload(Relay, "ann", MailBody(DefaultSubject, Notice(IceSent)))],
        None)
  {
    assert "2026-10-09"[..4] == "2026" && "2026-10-09"[5..7] == "10" && "2026-10-09"[8..] == "09";
    assert Parse("2026-10-09") == Some(Date(2026, 10, 9));
    assert Midnight(Date(2026, 10, 9)) <= Today;
  }

  /** Armed for tomorrow: nothing is sent. */
  lemma SweepFutureRecord()
    ensures var store := map["ann" := Record(["a@x.com"], "hi", true, Some("2026-10-11"))];
      Deliver(store, ["ann"], Today, map["ann" := None]) == Delivery([], None)
  {
    assert "2026-10-11"[..4] == "2026" && "2026-10-11"[5..7] == "10" && "2026-10-11"[8..] == "11";
    assert Parse("2026-10-11") == Some(Date(2026, 10, 11));
    assert Midnight(Date(2026, 10, 11)) > Today;
  }
}

=== FILE: sweep.dfy ===
/**
 * `ICE.deliver_ice` (agents/ice/ice.py:54-90), the sweep the host runs every
 * 300 seconds. It reads the store and emits payloads; it writes nothing, so
 * it has no store result. In particular it does not disable a record it has
 * delivered, contrary to its own docstring: a due record is delivered again
 * on every later sweep (lemma SweepRepeats).
 *
 * The notices to the owner go through `_feedback` without a destination. As
 * written, that raises `AttributeError` for an owner missing from the user
 * directory (agents/ice/ice.py:382-383), which ends the sweep; the
 * `AsWritten` members below model that. Deliver uses the evidently intended
 * builder, which sends no notice in that case, and agrees with
 * DeliverAsWritten whenever every enabled owner is in the directory
 * (lemma AsWrittenAgrees).
 */
module Sweep {
  import opened Wrappers
  import opened Messages
  import opened Emails
  import opened Dates
  import opened Records
  import opened Feedback

  /** The payloads a sweep sends, in order, and the exception that stopped
      it, if any. Payloads sent before an exception stay sent. */
  datatype Delivery = Delivery(sent: seq<Payload>, raised: Option<PyError>)

  /** `self.sendbus(self._feedback(...))`: a payload the builder abandoned
      sends nothing. */
  function Sent(p: Option<Payload>): seq<Payload> {
    if p.Some? then [p.value] else []
  }

  /** The ICE mail to one recipient. */
  function IceMail(to: string, message: string): Payload {
    Payload(Relay, to, MailBody(DefaultSubject, Raw(message)))
  }

  /** `for mail in emails: sendbus(_feedback(msg, mail, 'mail', 'Zoe ICE'))`. */
  function MailAll(emails: seq<string>, message: string, dir: Directory): (r: seq<Payload>)
    ensures |r| == |emails|
    ensures forall i :: 0 <= i < |r| ==> r[i] == IceMail(emails[i], message)
    decreases |emails|
  {
    if |emails| == 0 then []
    else
      var p := Build(Raw(message), emails[0], MailChannel, DefaultSubject, dir);
      [p.value] + MailAll(emails[1..], message, dir)
  }

  /** An enabled record whose date parses and whose midnight is not after `now`. */
  predicate Due(r: Record, now: int) {
    r.enabled && r.date.Some? && Classify(r.date.value, now) == InPast
  }

  /** The records the sweep handles without raising and without reporting
      DATE_INVALID: enabled only with a date that parses. */
  predicate Armed(r: Record) {
    r.enabled ==> r.date.Some? && Parse(r.date.value).Some?
  }

  /** The loop body for one record. */
  function DeliverRecord(user: string, r: Record, now: int, dir: Directory): (d: Delivery)
    ensures !r.enabled ==> d == Delivery([], None)
    ensures r.enabled && r.date.None? ==> d == Delivery([], Some(TypeError))
    ensures r.enabled && r.date.Some? && Parse(r.date.value).None? ==>
      d == Delivery(Sent(Build(Notice(DateInvalid), user, "", "", dir)), None)
    ensures r.enabled && r.date.Some? && Classify(r.date.value, now) == Future ==> d == Delivery([], None)
    ensures Due(r, now) ==>
      && d.raised == None
      && |d.sent| == |r.emails| + (if user in dir then 1 else 0)
      && (forall i :: 0 <= i < |r.emails| ==> d.sent[i] == IceMail(r.emails[i], r.message))
      && d.sent[|r.emails|..] == Sent(Build(Notice(IceSent), user, "", "", dir))
  {
    if !r.enabled then Delivery([], None)
    else if r.date.None? then Delivery([], Some(TypeError))
    else
      match Classify(r.date.value, now)
      case Invalid => Delivery(Sent(Build(Notice(DateInvalid), user, "", "", dir)), None)
      case Future => Delivery([], None)
      case InPast =>
        Delivery(MailAll(r.emails, r.message, dir) + Sent(Build(Notice(IceSent), user, "", "", dir)), None)
  }

  /** `order` lists every user of the store once: the order TinyDB returns
      the enabled documents in. */
  predicate Enumerates(order: seq<string>, store: Store) {
    NoDup(order) && Elems(order) == store.Keys
  }

  /** One sweep over the users in `order`; an exception ends it. */
  function Deliver(store: Store, order: seq<string>, now: int, dir: Directory): (d: Delivery)
    requires forall i :: 0 <= i < |order| ==> order[i] in store
    ensures (forall u :: u in store ==> !store[u].enabled) ==> d == Delivery([], None)
    decreases |order|
  {
    if |order| == 0 then Delivery([], None)
    else
      var first := DeliverRecord(order[0], store[order[0]], now, dir);
      if first.raised.Some? then first
      else
        var rest := Deliver(store, order[1..], now, dir);
        Delivery(first.sent + rest.sent, rest.raised)
  }

  /** The payloads of each visited record, in visiting order. */
  function PerRecord(store: Store, order: seq<string>, now: int, dir: Directory): (r: seq<seq<Payload>>)
    requires forall i :: 0 <= i < |order| ==> order[i] in store
    ensures |r| == |order|
    ensures forall i :: 0 <= i < |order| ==> r[i] == DeliverRecord(order[i], store[order[i]], now, dir).sent
    decreases |order|
  {
    if |order| == 0 then []
    else [DeliverRecord(order[0], store[order[0]], now, dir).sent] + PerRecord(store, order[1..], now, dir)
  }

  /** The concatenation of a sequence of sequences. */
  function Flatten<T>(ss: seq<seq<T>>): seq<T>
    decreases |ss|
  {
    if |ss| == 0 then [] else ss[0] + Flatten(ss[1..])
  }

  /** With every record armed, a sweep sends exactly the payloads of each
      record in turn: order and multiplicity are those of the records. */
  lemma {:induction false} DeliverIsConcatenation(store: Store, order: seq<string>, now: int, dir: Directory)
    requires forall i :: 0 <= i < |order| ==> order[i] in store
    requires forall u :: u in store ==> Armed(store[u])
    ensures Deliver(store, order, now, dir) == Delivery(Flatten(PerRecord(store, order, now, dir)), None)
    decreases |order|
  {
    if |order| > 0 {
      DeliverIsConcatenation(store, order[1..], now, dir);
      assert PerRecord(store, order, now, dir)[1..] == PerRecord(store, order[1..], now, dir);
    }
  }

  /** With every record armed, the sweep finishes and sends everything each
      visited record yields. */
  lemma {:induction false} DeliverCovers(store: Store, order: seq<string>, now: int, dir: Directory)
    requires forall i :: 0 <= i < |order| ==> order[i] in store
    requires forall u :: u in store ==> Armed(store[u])
    ensures Deliver(store, order, now, dir).raised == None
    ensures forall i, p :: 0 <= i < |order| && p in DeliverRecord(order[i], store[order[i]], now, dir).sent ==>
      p in Deliver(store, order, now, dir).sent
    decreases |order|
  {
    if |order| > 0 {
      DeliverCovers(store, order[1..], now, dir);
      forall i, p | 0 <= i < |order| && p in DeliverRecord(order[i], store[order[i]], now, dir).sent
        ensures p in Deliver(store, order, now, dir).sent
      {
        if i > 0 {
          assert order[1..][i - 1] == order[i];
        }
      }
    }
  }

  /** Everything a sweep sends comes from a record it visited. */
  lemma {:induction false} DeliverSound(store: Store, order: seq<string>, now: int, dir: Directory, p: Payload)
    requires forall i :: 0 <= i < |order| ==> order[i] in store
    requires p in Deliver(store, order, now, dir).sent
    ensures exists i :: 0 <= i < |order| && p in DeliverRecord(order[i], store[order[i]], now, dir).sent
    decreases |order|
  {
    var first := DeliverRecord(order[0], store[order[0]], now, dir);
    if p !in first.sent {
      DeliverSound(store, order[1..], now, dir, p);
      var i :| 0 <= i < |order[1..]| && p in DeliverRecord(order[1..][i], store[order[1..][i]], now, dir).sent;
      assert order[1..][i] == order[i + 1];
    }
  }

  /** A sweep over armed records never reports DATE_INVALID. */
  lemma ArmedSweepIsClean(store: Store, order: seq<string>, now: int, dir: Directory)
    requires forall i :: 0 <= i < |order| ==> order[i] in store
    requires forall u :: u in store ==> Armed(store[u])
    ensures Deliver(store, order, now, dir).raised == None
    ensures forall p :: p in Deliver(store, order, now, dir).sent ==> Content(p.body) != Notice(DateInvalid)
  {
    DeliverCovers(store, order, now, dir);
    forall p | p in Deliver(store, order, now, dir).sent
      ensures Content(p.body) != Notice(DateInvalid)
    {
      DeliverSound(store, order, now, dir, p);
    }
  }

  /** A due record stays due, and its delivery is the same at every later
      instant: nothing in the record records that it was sent. */
  lemma DueStaysDue(user: string, r: Record, now: int, later: int, dir: Directory)
    requires Due(r, now) && now <= later
    ensures Due(r, later)
    ensures DeliverRecord(user, r, later, dir) == DeliverRecord(user, r, now, dir)
  {
  }

  /** Since the sweep writes nothing, a record due at one sweep has its mails
      sent again by every later sweep: delivery is not single-shot. */
  lemma SweepRepeats(store: Store, order: seq<string>, user: string, now: int, later: int, dir: Directory)
    requires Enumerates(order, store)
    requires forall u :: u in store ==> Armed(store[u])
    requires user in store && Due(store[user], now) && now <= later
    ensures forall i :: 0 <= i < |store[user].emails| ==>
      && IceMail(store[user].emails[i], store[user].message) in Deliver(store, order, now, dir).sent
      && IceMail(store[user].emails[i], store[user].message) in Deliver(store, order, later, dir).sent
  {
    assert user in Elems(order);
    var k :| 0 <= k < |order| && order[k] == user;
    DueStaysDue(user, store[user], now, later, dir);
    DeliverCovers(store, order, now, dir);
    DeliverCovers(store, order, later, dir);
    forall i | 0 <= i < |store[user].emails|
      ensures IceMail(store[user].emails[i], store[user].message) in Deliver(store, order, now, dir).sent
      ensures IceMail(store[user].emails[i], store[user].message) in Deliver(store, order, later, dir).sent
    {
      assert DeliverRecord(order[k], store[order[k]], now, dir).sent[i] == IceMail(store[user].emails[i], store[user].message);
    }
  }

  // ------------------------------------------------------------ as written

  /** Sends the payload `_feedback` built, or carries the exception it raised. */
  function SendAsWritten(b: Built): Delivery {
    match b
    case Built(p) => Delivery(Sent(p), None)
    case Failed(e) => Delivery([], Some(e))
  }

  /** The loop body with `_feedback` as written. */
  function DeliverRecordAsWritten(user: string, r: Record, now: int, dir: Directory): (d: Delivery)
    ensures Due(r, now) && user !in dir ==>
      d == Delivery(MailAll(r.emails, r.message, dir), Some(AttributeError))
    ensures user in dir ==> d == DeliverRecord(user, r, now, dir)
    ensures d.raised == Some(AttributeError) <==>
      user !in dir && r.enabled && r.date.Some? && Classify(r.date.value, now) != Future
    ensures d.raised != Some(AttributeError) ==> d == DeliverRecord(user, r, now, dir)
  {
    if !r.enabled then Delivery([], None)
    else if r.date.None? then Delivery([], Some(TypeError))
    else
      match Classify(r.date.value, now)
      case Invalid => SendAsWritten(BuildAsWritten(Notice(DateInvalid), user, "", "", dir))
      case Future => Delivery([], None)
      case InPast =>
        var notice := SendAsWritten(BuildAsWritten(Notice(IceSent), user, "", "", dir));
        Delivery(MailAll(r.emails, r.message, dir) + notice.sent, notice.raised)
  }

  /** `deliver_ice` as written: an exception ends the sweep. */
  function DeliverAsWritten(store: Store, order: seq<string>, now: int, dir: Directory): (d: Delivery)
    requires forall i :: 0 <= i < |order| ==> order[i] in store
    ensures (forall u :: u in store ==> !store[u].enabled) ==> d == Delivery([], None)
    ensures d.raised == Some(AttributeError) ==>
      exists i :: 0 <= i < |order| && store[order[i]].enabled && order[i] !in dir
        && store[order[i]].date.Some? && Classify(store[order[i]].date.value, now) != Future
    decreases |order|
  {
    if |order| == 0 then Delivery([], None)
    else
      var first := DeliverRecordAsWritten(order[0], store[order[0]], now, dir);
      if first.raised.Some? then first
      else
        var rest := DeliverAsWritten(store, order[1..], now, dir);
        Delivery(first.sent + rest.sent, rest.raised)
  }

  /** As written, the first due record whose owner the directory lacks sends
      its mails and then ends the sweep with `AttributeError`: the records
      after it are never visited. */
  lemma UnknownOwnerEndsSweep(store: Store, order: seq<string>, now: int, dir: Directory)
    requires forall i :: 0 <= i < |order| ==> order[i] in store
    requires |order| > 0 && Due(store[order[0]], now) && order[0] !in dir
    ensures DeliverAsWritten(store, order, now, dir)
         == Delivery(MailAll(store[order[0]].emails, store[order[0]].message, dir), Some(AttributeError))
  {
  }

  /** When every enabled owner is in the directory, the written sweep and the
      intended one coincide. */
  lemma {:induction false} AsWrittenAgrees(store: Store, order: seq<string>, now: int, dir: Directory)
    requires forall i :: 0 <= i < |order| ==> order[i] in store
    requires forall i :: 0 <= i < |order| && store[order[i]].enabled ==> order[i] in dir
    ensures DeliverAsWritten(store, order, now, dir) == Deliver(store, order, now, dir)
    decreases |order|
  {
    if |order| > 0 {
      AsWrittenAgrees(store, order[1..], now, dir);
      if !store[order[0]].enabled {
        assert DeliverRecordAsWritten(order[0], store[order[0]], now, dir) == Delivery([], None);
      }
    }
  }

  /** As written, a sweep over armed records whose enabled owners are all in
      the directory finishes and sends what the intended sweep sends. */
  lemma ArmedSweepIsCleanAsWritten(store: Store, order: seq<string>, now: int, dir: Directory)
    requires forall i :: 0 <= i < |order| ==> order[i] in store
    requires forall u :: u in store ==> Armed(store[u])
    requires forall i :: 0 <= i < |order| && store[order[i]].enabled ==> order[i] in dir
    ensures DeliverAsWritten(store, order, now, dir).raised == None
    ensures forall p :: p in DeliverAsWritten(store, order, now, dir).sent ==> Content(p.body) != Notice(DateInvalid)
  {
    AsWrittenAgrees(store, order, now, dir);
    ArmedSweepIsClean(store, order, now, dir);
  }
}

=== FILE: wrappers.dfy ===
/** Python's "value or None", shared by every module of the model. */
module Wrappers {

  /** `None` is Python's `None`; `Some(v)` a present value. */
  datatype Option<+T> = None | Some(value: T) {

    /** The value, or `default` when absent (Python's `d.get(key, default)`). */
    function GetOr(default: T): T {
      match this
      case Some(v) => v
      case None => default
    }
  }
}
